=== FILE: README.md ===
# sidebar.js: a Dafny model of the problem-picker sidebar

The sidebar is a browser script. It searches an exam archive for past papers
of a school year, month, subject and year. It takes the questions the user
typed from each exam's statistics, keeps them in a list, and builds a
worksheet request from that list. This project models its core logic:

- **Text**: the JavaScript built-ins the script depends on.
  - `trim` over ECMAScript's whitespace and line-terminator code points.
  - `split` on a one-character separator, and `join`.
  - The decimal renderings that `"" + n` and `problemNum - 1` convert between.
- **Form**: normalising the search form. The month is padded to two digits
  and a blank year defaults to the current year, which is a parameter here.
  The problem-number field is split at commas, trimmed, and emptied of blank
  entries. Form also builds the query of the past-paper list request.
- **Scrape**: reading exam ids out of the `onclick` attributes of the result
  page's buttons. It gives a declarative meaning to `/paperOn\('(\d+)'/`
  and proves the greedy leftmost search equivalent to it.
- **Selection**: the per-exam rule. Question N is taken when the statistics
  array has an N-th record with a positive correctness rate. Each taken
  question gets its label from the year, grade, padded month and subject
  name.
- **Sidebar**: the list as a state machine over the page's events.
  - Events: search, delete, clear, reset and generate.
  - The rows the list renders and the worksheet request.
  - A search as it is written, and a search with the panel check made after
    the results are in.
- **Seqs**: generic sequence laws, proved once. `FlatMap` is one batch per
  element: per button, per typed number, per statistics response.

Two kinds of input are parameters, because the model has no network and no
clock:

- The pages and statistics payloads the network would return.
- The order in which the per-exam statistics responses complete. This is a
  permutation of the scraped exams.

## Model

| member | source | states |
|---|---|---|
| Text.Split | sidebar.js:161 | `split(',')` gives at least one piece, and no piece contains a comma. With SplitCount and JoinSplit this pins the pieces down as the maximal comma-free runs between the commas. |
| Text.Join | sidebar.js:19 | `join(',')` of no pieces is the empty string. Otherwise the result begins with the first piece. JoinSplit and SplitJoin make it the inverse of split. |
| Text.NatToString | sidebar.js:183-185 | `"" + year`, as the query sends it at lines 183 and 185 and the label at line 258 prints it, is a non-empty digit string with no leading zero. ParseNatToString reads it back as the year. |
| Text.Trim | sidebar.js:161 | The result has no whitespace at either end, and it occurs in the input with only whitespace on both sides of it. |
| Text.TrimIdempotent | sidebar.js:161 | Trimming an already trimmed id changes nothing. |
| Text.SplitCount | sidebar.js:161 | Splitting at commas gives one more piece than there are commas, so `"".split(',')` is one empty piece. |
| Text.JoinSplit | sidebar.js:161 | Joining the pieces of a split with the separator gives back the original field. |
| Text.SplitJoin | sidebar.js:19 | Splitting a join of comma-free ids at commas gives back the ids. |
| Text.SplitAround | sidebar.js:161 | A comma between two strings splits the whole into the pieces of each part, in order. |
| Text.ParseNatToString | sidebar.js:183-185 | The decimal rendering of the current year reads back as that year. |
| Form.PadMonth | sidebar.js:177-179 | A one-character month gets a leading `0`. Any other month, including the empty one, is left unchanged. |
| Form.PadMonthIdempotent | sidebar.js:177-179 | Padding a padded month changes nothing. |
| Form.PadMonthOfMonthNumber | sidebar.js:177-179 | For months 1 to 12, the padded month is their two-digit rendering and parses back to the month. |
| Form.EffectiveYear | sidebar.js:160 | A non-empty year field is used as typed. A blank one becomes exactly the shortest decimal rendering of the current year, which reads back as that year. |
| Form.NonEmpty | sidebar.js:161 | `filter(id => id)` keeps no more entries than it was given, and every kept entry is a non-empty entry of the input. NonEmptyAppend adds that it keeps their order. |
| Form.TargetCode | sidebar.js:190 | `D${grade}00` is three characters longer than the grade and reads back as the grade. |
| Form.TrimAll | sidebar.js:161 | `.map(id => id.trim())` keeps one entry per piece, in order, each the trimmed piece. |
| Form.ParseProblemIds | sidebar.js:161 | Every id is non-empty, has no whitespace at either end and contains no comma. There are at most commas+1 ids. |
| Form.ParseProblemIdsAppend | sidebar.js:161 | Parsing keeps the typed order. The ids of `a,b` are the ids of `a` followed by those of `b`. |
| Form.ParseJoinedIds | sidebar.js:161 | Any list of trimmed, non-empty, comma-free ids, the empty list included,, joined with commas, parses back to that list. |
| Form.TrimIsInfix | sidebar.js:161 | Trimming adds no character, so a comma-free piece stays comma-free. |
| Form.NonEmptyAppend | sidebar.js:161 | Dropping blank entries works piece by piece and keeps the order. |
| Form.Normalise | sidebar.js:157-179 | Grade and subject are copied. The year is the effective year, so it is never empty and a blank field becomes the current year's shortest rendering. The month is the padded month, so a one-character month becomes two characters. |
| Form.BuildQuery | sidebar.js:182-191 | The begin and end years are the same single year. Month and subject are copied. The target code reads back as the grade. The query asks for page 1 of 10, most recent first. |
| Form.QueryOfForm | sidebar.js:157-191 | For any form, the query's year is the typed year, or else exactly the shortest decimal rendering of the current year, which reads back as that year. Its month is the padded month and its target code names the form's grade. |
| Scrape.RegexMatchIff | sidebar.js:230 | The greedy check (the opening text, the longest digit run, then a quote) succeeds exactly where the regular expression matches. Its capture is the unique capture there. |
| Scrape.FirstMatch | sidebar.js:230 | It finds the leftmost offset where the check succeeds, or reports that no offset does. |
| Scrape.ExtractExamId | sidebar.js:230-232 | A missing attribute gives nothing. A found id is a non-empty digit string and the capture of the leftmost match. When nothing is found, there is no match at any offset. |
| Scrape.NoQuoteNoId | sidebar.js:230 | An attribute without a quote yields no exam id. |
| Scrape.LeadingCall | sidebar.js:229-230 | An attribute that begins `paperOn('<digits>'` yields exactly those digits. |
| Scrape.ExampleButton | sidebar.js:229-230 | The example button from the source comment yields `3417953`. |
| Scrape.IdOf | sidebar.js:230-233 | One button pushes exactly one id when its attribute matches and none otherwise. That id is the match's capture `examId[1]`, a non-empty digit string. |
| Scrape.ExtractExamIds | sidebar.js:228-234 | There is at most one id per button, and every id is a non-empty digit string. With ExtractExamIdsOne and ExtractExamIdsAppend, the ids are exactly the buttons' captures, in button order. |
| Scrape.ExtractExamIdsOne | sidebar.js:228-234 | A single button contributes exactly what IdOf gives it: its capture, or nothing. |
| Scrape.IdsAreExamIds | sidebar.js:228-234 | Induction over the buttons: each contributes at most one id, and every id is a digit string. |
| Scrape.ExtractExamIdsAppend | sidebar.js:228-234 | The ids keep button order. Two runs of buttons give the ids of the first run, then those of the second. |
| Selection.SubjectName | sidebar.js:165-174 | The codes 1 to 8 have names. Every other code renders as `undefined`. |
| Selection.ProblemNumber | sidebar.js:256 | A typed number is read as a number exactly when it is a non-empty digit string. |
| Selection.ProblemNumberOfRendering | sidebar.js:256 | Every number typed in its usual decimal form is read as itself. |
| Selection.ProblemNumberLeadingZero | sidebar.js:256 | A leading zero changes nothing, so `01` is read as 1. With ProblemNumberOfRendering this fixes the number of every digit string. |
| Selection.RecordAt | sidebar.js:256 | `json.data[problemNum-1]` exists exactly for positions inside the array, and position -1 is outside it. When it exists, it is the record at that position. |
| Selection.Entry | sidebar.js:256-262 | The pushed object for an accepted number: the `ITEM_ID` of the record that `problemNum-1` selects, and the number's label. Pick proves the loop body pushes exactly this. |
| Selection.Label | sidebar.js:258 | The label begins with the year and ends with the typed number followed by `번`. |
| Selection.SelectFromExam | sidebar.js:255-264 | The loop over the typed numbers yields exactly one problem per accepted number. SelectPosition and SelectAppend fix where each one lands. |
| Selection.Pick | sidebar.js:255-264 | A number yields one problem exactly when it is accepted: 1 ≤ N ≤ len(data) and record N-1 has a positive rate. That problem carries the record's item id and the number's label. |
| Selection.SelectCount | sidebar.js:255-264 | One exam contributes exactly one problem per accepted typed number. |
| Selection.SelectPosition | sidebar.js:255-264 | The entry for the k-th typed number sits right after the entries of the accepted numbers typed before it. |
| Selection.SelectAppend | sidebar.js:255-264 | Selection keeps the typed order. Two runs of numbers give the first run's entries, then the second's. |
| Selection.RejectedContributesNothing | sidebar.js:256-257 | A number that is not accepted adds nothing anywhere in the list. |
| Selection.SelectedAreEntries | sidebar.js:255-264 | Every selected problem is the entry of an accepted typed number. |
| Selection.Example | sidebar.js:255-264 | Worked example: 2013, grade 1, month `3`, subject 2 and numbers `1,2`, with rates 45 and 0. The only problem is record 1, labelled `2013년 고1 03월 수학 1번`. |
| Sidebar.SpliceStart | sidebar.js:75 | Where `splice(index, 1)` starts. A negative index counts from the end, and the start is clamped to the array. |
| Sidebar.Delete | sidebar.js:74-85 | An index inside the list removes exactly that entry and shifts the later ones up. An index past the end changes nothing. An empty result hides the panel, and otherwise the panel is unchanged. |
| Sidebar.DeleteRemovesOne | sidebar.js:75 | Deleting entry i leaves every other entry with its multiplicity. |
| Sidebar.DeleteKeepsConsistent | sidebar.js:74-85 | If the panel was shown exactly when the list was non-empty, that still holds after a delete. |
| Sidebar.Clear | sidebar.js:139-145 | The list is empty and the panel hidden. |
| Sidebar.Reset | sidebar.js:54-61 | The list is back in its page-load state: empty, with the panel hidden. |
| Sidebar.ClearResetIdempotent | sidebar.js:45-68 | Reset and clear both lead to the page-load state, and doing either twice is doing it once. |
| Sidebar.Render | sidebar.js:99-119 | One row per problem, in list order, showing its label. |
| Sidebar.DeleteFromRow | sidebar.js:113 | Row k's delete button removes problem k. The next render has one row fewer, with the later rows moved up. |
| Sidebar.Ids | sidebar.js:19 | `problems.map(p => p.id)` has one id per problem, in list order. |
| Sidebar.ItemList | sidebar.js:19 | An empty list gives an empty item list, and a single problem gives its id. |
| Sidebar.ItemListRoundTrip | sidebar.js:19 | With comma-free ids, the item list splits back into the ids in list order, with one comma fewer than there are problems. |
| Sidebar.Worksheet | sidebar.js:16-29 | The title is the title field or empty, the description is empty, and the subject and paper type are the fixed codes. The item list is the list's joined ids. |
| Sidebar.ArrivalInRange | sidebar.js:236 | An arrival order has one response per scraped exam and names only scraped exams. |
| Sidebar.ExamBatch | sidebar.js:251-264 | A response without `data` appends nothing. Otherwise it appends one problem per accepted typed number. |
| Sidebar.Collected | sidebar.js:236-265 | The problems all statistics responses append, one batch per response, in the order the responses complete. It has no contract of its own. CollectedAppend, CollectedOrderIrrelevant and CollectedAreEntries state its properties. |
| Sidebar.CollectedAppend | sidebar.js:236-265 | Responses append batch after batch in the order they complete. |
| Sidebar.CollectedOrderIrrelevant | sidebar.js:236-265 | Any two completion orders append the same problems, with the same multiplicities. |
| Sidebar.CollectedAreEntries | sidebar.js:236-265 | Every collected problem is the entry of an accepted typed number in the statistics of a scraped exam. |
| Sidebar.Added | sidebar.js:236-265 | What one successful submission appends: the collected batches of the scraped exams, for the normalised form and the parsed numbers. It has no contract of its own. ArrivalOrderIrrelevant, AddedAreEntries and Search state its properties. |
| Sidebar.ArrivalOrderIrrelevant | sidebar.js:236-265 | What a submission appends depends on the completion order only up to reordering. |
| Sidebar.SearchAsWritten | sidebar.js:268-274 | As written, a failed list request changes nothing. Otherwise the old entries are followed by exactly the collected problems, the same list the corrected search builds. The panel is shown only if it was shown already or the list was non-empty before the search. |
| Sidebar.SearchAsWrittenHidesFirstResults | sidebar.js:270-274 | From page load, any search that finds problems leaves them listed behind a hidden panel. |
| Sidebar.FirstSearchWitness | sidebar.js:270-274 | A concrete first search lists one problem with the panel hidden as written. The corrected search shows the panel. |
| Sidebar.Search | sidebar.js:151-274 | The submit handler as corrected, with the panel check made after the appends rather than where line 272 makes it. A failed list request changes nothing. Otherwise the old entries are kept and followed by exactly the collected problems, and the panel stays consistent with the list. |
| Sidebar.AddedAreEntries | sidebar.js:236-264 | Every problem a search appends is an accepted question of a scraped exam, labelled from the normalised form. |
| Sidebar.Step | sidebar.js:123-147 | One event, with the corrected submit handler. It keeps the panel shown exactly when the list is non-empty. Clear and reset lead to the page-load state, and generating the worksheet changes nothing. |
| Sidebar.Run | sidebar.js:123-147 | Any sequence of events, with the corrected submit handler, keeps the panel shown exactly when the list is non-empty, if that held at the start. |
| Sidebar.RunKeepsConsistent | sidebar.js:123-147 | With the corrected submit handler, whose panel check comes after the appends: from page load, after any sequence of searches, deletes, clears, resets and generates, the panel is shown exactly when the list is non-empty. |

## Left out

- Network requests are not modelled: the list request, the per-exam statistics requests and the create-paper request. Their results are parameters. A failed or empty list response is the `None` page, and a statistics response without `data` is a `None` payload.
- HTML parsing (`DOMParser`) and the selector `li > div > div > button:nth-child(2)` are left out. The page is given as the `onclick` attributes of the selected buttons, in document order.
- DOM styling and the `problem-list` element are left out. The list is modelled by its rows, and the panel by one visibility flag that starts hidden.
- The `setTimeout` re-render and the timing of the statistics responses are left out. All responses of a search are taken to land, in any order, before the next event. A response that lands after a later clear or reset is not modelled.
- `encodeURIComponent`, `URLSearchParams` encoding and console logging are left out. The requests are modelled by their field values.
- `form.reset()` in `resetPage` is left out, because the form fields are inputs of each search, not state.
- Selection.ProblemNumber: JavaScript's `problemNum - 1` also coerces forms such as `0x1A`, `1e1`, `1.0` and `Infinity`. Only plain decimal digit strings are modelled, and every other string counts as not a number, which selects nothing.
- Selection.StatRecord: `CORRECT_RATE` is modelled as a number. JSON strings, `null` and missing rates, which JavaScript would coerce in `> 0`, are not modelled.
- Selection.SubjectName: inherited object keys such as `constructor` would not render as `undefined` in JavaScript. Only own keys are modelled.
- Form.PadMonth: `month.length === 1` counts UTF-16 code units, but the model counts code points. A single character outside the Basic Multilingual Plane, such as U+1F600, is padded by the model but not by JavaScript. No real month field holds one.
- Text.Trim: JavaScript strings are UTF-16, but Dafny characters are code points. Lone surrogates are not modelled.

## Findings

| source | as written | input that shows it | evidently intended | confidence | as-written member | corrected member |
|---|---|---|---|---|---|---|
| sidebar.js:268-274 | The panel check `problems.length > 0` runs right after the statistics requests are started. Each response pushes only after awaiting its fetch, so the check sees the list as it was before the search. | After the clear button, which empties the list and hides the panel (sidebar.js:139-145), search with year 2013, grade 1, month 3, subject 2 and problem ids `1`. There is one exam button `paperOn('3417953'` and one record with rate 45. The problem is listed but the panel stays hidden. | The panel is shown when the list is non-empty after the search. The script hides the panel whenever it empties the list (sidebar.js:59-61, 81-84, 142-145) and shows it when problems exist (sidebar.js:272-274). | not executed | Sidebar.SearchAsWritten, Sidebar.FirstSearchWitness | Sidebar.Search, Sidebar.Run, Sidebar.RunKeepsConsistent |

=== FILE: form.dfy ===
/** Normalisation of the search form's fields before a search: month
    padding, the year default, the comma-separated problem-number field, and
    the form-encoded query sent to the past-paper list endpoint
    (sidebar.js, the `problem-form` submit handler). */
module Form {
  import opened Wrappers
  import opened Text
  import opened Seqs

  /** The raw values of the search form's fields, as the browser reports them. */
  datatype SearchForm = SearchForm(
    grade: string,
    subject: string,
    month: string,
    year: string,
    problemIds: string)

  /** The normalised values that the query and the labels are built from. */
  datatype SearchContext = SearchContext(
    year: string,
    grade: string,
    month: string,
    subject: string)

  /** The eight fields of the past-paper list request body. */
  datatype SearchQuery = SearchQuery(
    beginYear: string,
    currentPage: string,
    endYear: string,
    monthList: string,
    pageSize: string,
    sort: string,
    subjList: string,
    targetCd: string)

  /** A one-character month gets a leading '0'; any other month is kept. */
  function PadMonth(m: string): (r: string)
    ensures |m| == 1 ==> |r| == 2 && r[0] == '0' && r[1..] == m
    ensures |m| != 1 ==> r == m
  {
    if |m| == 1 then "0" + m else m
  }

  /** Padding an already padded month changes nothing. */
  lemma PadMonthIdempotent(m: string)
    ensures PadMonth(PadMonth(m)) == PadMonth(m)
  {
  }

  /** The two-digit rendering of a calendar month number. */
  function TwoDigits(n: nat): (r: string)
    requires n < 100
    ensures |r| == 2 && AllDigits(r)
  {
    [DigitChar(n / 10), DigitChar(n % 10)]
  }

  /** For every month 1..12 chosen on the form, the padded month is its
      two-digit rendering, and it reads back as the same month. */
  lemma {:induction false} PadMonthOfMonthNumber(n: nat)
    requires 1 <= n <= 12
    ensures PadMonth(NatToString(n)) == TwoDigits(n)
    ensures ParseDecimal(PadMonth(NatToString(n))) == Some(n)
  {
    var r := PadMonth(NatToString(n));
    var t := TwoDigits(n);
    if n < 10 {
      assert NatToString(n) == [DigitChar(n)];
      assert r == ['0', DigitChar(n)];
    } else {
      assert NatToString(n / 10) == [DigitChar(n / 10)];
      assert NatToString(n) == [DigitChar(n / 10), DigitChar(n % 10)];
    }
    assert r == t;
    assert t[..1] == [DigitChar(n / 10)];
    assert DigitsValue(t[..1]) == n / 10 by {
      assert t[..1][..0] == [];
    }
    assert DigitsValue(t) == DigitsValue(t[..1]) * 10 + n % 10;
  }

  /** `form.year.value || new Date().getFullYear()`: the typed year, or the
      current year (a parameter here) when the field is blank. */
  function EffectiveYear(yearField: string, currentYear: nat): (r: string)
    ensures |r| > 0
    ensures yearField != "" ==> r == yearField
    ensures yearField == "" ==> r == NatToString(currentYear)
    ensures yearField == "" ==> ParseDecimal(r) == Some(currentYear)
  {
    if yearField != "" then yearField
    else
      ParseNatToString(currentYear);
      NatToString(currentYear)
  }

  /** Drops the empty strings, keeping the order of the rest. */
  function NonEmpty(xs: seq<string>): (r: seq<string>)
    ensures |r| <= |xs|
    ensures forall k :: 0 <= k < |r| ==> r[k] != "" && r[k] in xs
    decreases |xs|
  {
    if |xs| == 0 then []
    else if xs[0] == "" then NonEmpty(xs[1..])
    else [xs[0]] + NonEmpty(xs[1..])
  }

  /** Filtering distributes over concatenation, so it keeps the order. */
  lemma {:induction false} NonEmptyAppend(xs: seq<string>, ys: seq<string>)
    ensures NonEmpty(xs + ys) == NonEmpty(xs) + NonEmpty(ys)
    decreases |xs|
  {
    if |xs| > 0 {
      assert (xs + ys)[1..] == xs[1..] + ys;
      NonEmptyAppend(xs[1..], ys);
    } else {
      assert xs + ys == ys;
    }
  }

  /** `Trim` applied to every piece. */
  function TrimAll(xs: seq<string>): (r: seq<string>)
    ensures |r| == |xs|
    ensures forall k :: 0 <= k < |r| ==> r[k] == Trim(xs[k])
  {
    Map(Trim, xs)
  }

  /** `value.split(',').map(id => id.trim()).filter(id => id)`: the problem
      numbers the user typed, in the order typed. */
  function ParseProblemIds(field: string): (r: seq<string>)
    ensures |r| <= Occurrences(field, ',') + 1
    ensures forall k :: 0 <= k < |r| ==> r[k] != "" && IsTrimmed(r[k]) && ',' !in r[k]
  {
    var pieces := Split(field, ',');
    SplitCount(field, ',');
    TrimmedPieces(pieces);
    NonEmpty(TrimAll(pieces))
  }

  /** Trimming comma-free pieces gives trimmed, comma-free pieces. */
  lemma TrimmedPieces(pieces: seq<string>)
    requires forall k :: 0 <= k < |pieces| ==> ',' !in pieces[k]
    ensures forall t :: t in TrimAll(pieces) ==> IsTrimmed(t) && ',' !in t
  {
    var trimmed := TrimAll(pieces);
    forall t | t in trimmed
      ensures IsTrimmed(t) && ',' !in t
    {
      var j :| 0 <= j < |trimmed| && trimmed[j] == t;
      TrimIsInfix(pieces[j]);
    }
  }

  /** A trimmed string is a piece of its input, so it has no character the
      input lacks. */
  lemma TrimIsInfix(s: string)
    ensures forall c :: c in Trim(s) ==> c in s
  {
    var r := Trim(s);
    var i :| InfixAt(s, r, i);
    forall k | 0 <= k < |r|
      ensures r[k] in s
    {
      assert r[k] == s[i..i + |r|][k] == s[i + k];
    }
  }

  /** Parsing keeps the input order: the numbers typed before a comma come
      first, then those typed after it. */
  lemma ParseProblemIdsAppend(a: string, b: string)
    ensures ParseProblemIds(a + "," + b) == ParseProblemIds(a) + ParseProblemIds(b)
  {
    var pa := Split(a, ',');
    var pb := Split(b, ',');
    assert a + "," + b == a + [','] + b;
    SplitAround(a, b, ',');
    TrimAllAppend(pa, pb);
    NonEmptyAppend(TrimAll(pa), TrimAll(pb));
    ParseProblemIdsDef(a + "," + b);
    ParseProblemIdsDef(a);
    ParseProblemIdsDef(b);
  }

  /** The parse is split, then trim, then drop the empty entries. */
  lemma ParseProblemIdsDef(field: string)
    ensures ParseProblemIds(field) == NonEmpty(TrimAll(Split(field, ',')))
  {
  }

  /** Trimming two runs of pieces is trimming each. */
  lemma TrimAllAppend(xs: seq<string>, ys: seq<string>)
    ensures TrimAll(xs + ys) == TrimAll(xs) + TrimAll(ys)
  {
    MapAppend(Trim, xs, ys);
  }

  /** Parsing a comma-joined list of trimmed, non-empty, comma-free numbers
      gives the list back; no numbers join to the empty field, which parses
      to no numbers. */
  lemma {:induction false} ParseJoinedIds(ids: seq<string>)
    requires forall k :: 0 <= k < |ids| ==> ids[k] != "" && IsTrimmed(ids[k]) && ',' !in ids[k]
    ensures ParseProblemIds(Join(ids, ",")) == ids
  {
    if |ids| == 0 {
      ParseProblemIdsDef("");
      assert Split("", ',') == [""];
      assert TrimAll([""]) == [""];
      return;
    }
    SplitJoin(ids, ',');
    TrimAllOfTrimmed(ids);
    NonEmptyOfNonEmpty(ids);
    ParseProblemIdsDef(Join(ids, ","));
  }

  /** Trimming already trimmed strings changes none of them. */
  lemma TrimAllOfTrimmed(xs: seq<string>)
    requires forall k :: 0 <= k < |xs| ==> IsTrimmed(xs[k])
    ensures TrimAll(xs) == xs
  {
    forall k | 0 <= k < |xs|
      ensures Trim(xs[k]) == xs[k]
    {
      TrimOfTrimmed(xs[k]);
    }
  }

  /** Dropping empty entries from a list without any changes nothing. */
  lemma {:induction false} NonEmptyOfNonEmpty(xs: seq<string>)
    requires forall k :: 0 <= k < |xs| ==> xs[k] != ""
    ensures NonEmpty(xs) == xs
    decreases |xs|
  {
    if |xs| > 0 {
      NonEmptyOfNonEmpty(xs[1..]);
    }
  }

  /** `D<grade>00`, the target code naming the school year. */
  function TargetCode(grade: string): (r: string)
    ensures |r| == |grade| + 3
    ensures GradeOfTargetCode(r) == Some(grade)
  {
    var cd := "D" + grade + "00";
    assert cd[|cd| - 2..] == "00";
    assert cd[1..|cd| - 2] == grade;
    cd
  }

  /** The grade a target code names, when it has the `D…00` shape. */
  function GradeOfTargetCode(cd: string): Option<string> {
    if |cd| >= 3 && cd[0] == 'D' && cd[|cd| - 2..] == "00"
    then Some(cd[1..|cd| - 2]) else None
  }

  /** The normalised values a search works with. */
  function Normalise(f: SearchForm, currentYear: nat): (c: SearchContext)
    ensures c.grade == f.grade && c.subject == f.subject
    ensures c.year == EffectiveYear(f.year, currentYear) && c.year != ""
    ensures c.month == PadMonth(f.month)
    ensures |f.month| == 1 ==> |c.month| == 2
  {
    SearchContext(EffectiveYear(f.year, currentYear), f.grade, PadMonth(f.month), f.subject)
  }

  /** The past-paper list request: first page of ten, most recent first,
      for one year, one month, one subject and one school year. */
  function BuildQuery(c: SearchContext): (q: SearchQuery)
    ensures q.beginYear == q.endYear == c.year
    ensures q.monthList == c.month && q.subjList == c.subject
    ensures GradeOfTargetCode(q.targetCd) == Some(c.grade)
    ensures q.currentPage == "1" && q.pageSize == "10" && q.sort == "recent"
  {
    SearchQuery(c.year, "1", c.year, c.month, "10", "recent", c.subject, TargetCode(c.grade))
  }

  /** The query a submitted form produces: the year range is the one
      (possibly defaulted) year, the month is padded, and the target code
      reads back as the form's grade. */
  lemma QueryOfForm(f: SearchForm, currentYear: nat)
    ensures var q := BuildQuery(Normalise(f, currentYear));
      && q.beginYear == q.endYear
      && (f.year != "" ==> q.beginYear == f.year)
      && (f.year == "" ==> q.beginYear == NatToString(currentYear))
      && (f.year == "" ==> ParseDecimal(q.beginYear) == Some(currentYear))
      && q.monthList == PadMonth(f.month)
      && GradeOfTargetCode(q.targetCd) == Some(f.grade)
  {
  }
}

=== FILE: scrape.dfy ===
/** Extraction of exam ids from the `onclick` attributes of the scraped
    "take the exam" buttons: the first capture of the regular expression
    /paperOn\('(\d+)'/ in each attribute (sidebar.js, lines 228-234). */
module Scrape {
  import opened Wrappers
  import opened Text
  import opened Seqs

  /** The literal text the pattern starts with. */
  const Opening: string := "paperOn('"

  /** What the regular expression means, stated without reference to how it
      is searched for: at offset `i`, `s` reads `paperOn('`, then the
      non-empty digit string `id`, then a quote. */
  ghost predicate IsRegexMatch(s: string, i: int, id: string) {
    && 0 <= i
    && i + |Opening| + |id| < |s|
    && s[i..i + |Opening|] == Opening
    && |id| > 0 && AllDigits(id)
    && s[i + |Opening|..i + |Opening| + |id|] == id
    && s[i + |Opening| + |id|] == '\''
  }

  /** No match starts before offset `i`. */
  ghost predicate NoMatchBefore(s: string, i: int) {
    forall j, id :: 0 <= j < i ==> !IsRegexMatch(s, j, id)
  }

  /** `id` is the capture of the leftmost match, which is what
      `String.prototype.match` reports for a non-global expression. */
  ghost predicate IsLeftmostCapture(s: string, id: string) {
    exists i :: IsRegexMatch(s, i, id) && NoMatchBefore(s, i)
  }

  /** The length of the longest run of digits that starts at `k`. */
  function DigitRun(s: string, k: nat): (n: nat)
    requires k <= |s|
    ensures k + n <= |s|
    ensures AllDigits(s[k..k + n])
    ensures k + n == |s| || !IsDigit(s[k + n])
    decreases |s| - k
  {
    if k < |s| && IsDigit(s[k]) then
      var m := DigitRun(s, k + 1);
      assert s[k..k + 1 + m] == [s[k]] + s[k + 1..k + 1 + m];
      1 + m
    else 0
  }

  /** A digit run that is followed by a non-digit (or the end) is the
      longest one. */
  lemma {:induction false} DigitRunExact(s: string, k: nat, m: nat)
    requires k + m <= |s|
    requires AllDigits(s[k..k + m])
    requires k + m == |s| || !IsDigit(s[k + m])
    ensures DigitRun(s, k) == m
    decreases m
  {
    if m > 0 {
      assert s[k..k + m][0] == s[k];
      assert s[k + 1..k + m] == s[k..k + m][1..];
      DigitRunExact(s, k + 1, m - 1);
    }
  }

  /** The search's check at one offset: the opening text, a greedy digit
      run, and a quote right after it. */
  predicate MatchesAt(s: string, i: nat) {
    && i + |Opening| <= |s|
    && s[i..i + |Opening|] == Opening
    && var k := i + |Opening|;
       var n := DigitRun(s, k);
       n > 0 && k + n < |s| && s[k + n] == '\''
  }

  /** The digits the search captures at a matching offset. */
  function CaptureAt(s: string, i: nat): (id: string)
    requires MatchesAt(s, i)
    ensures IsRegexMatch(s, i, id)
  {
    var k := i + |Opening|;
    s[k..k + DigitRun(s, k)]
  }

  /** The greedy check agrees with the regular expression: there is a match
      at `i` exactly when the check succeeds, and then its capture is unique
      (backtracking into the digit run can never help, because a digit is
      not a quote). */
  lemma RegexMatchIff(s: string, i: nat, id: string)
    ensures IsRegexMatch(s, i, id) <==> MatchesAt(s, i) && id == CaptureAt(s, i)
  {
    if IsRegexMatch(s, i, id) {
      var k := i + |Opening|;
      DigitRunExact(s, k, |id|);
    }
  }

  /** The leftmost offset at or after `from` where the check succeeds. */
  function FirstMatch(s: string, from: nat): (r: Option<nat>)
    requires from <= |s|
    ensures r.Some? ==> from <= r.value < |s| && MatchesAt(s, r.value)
    ensures r.Some? ==> forall j :: from <= j < r.value ==> !MatchesAt(s, j)
    ensures r.None? ==> forall j :: from <= j <= |s| ==> !MatchesAt(s, j)
    decreases |s| - from
  {
    if from == |s| then None
    else if MatchesAt(s, from) then Some(from)
    else FirstMatch(s, from + 1)
  }

  /** `element.getAttribute('onclick')?.match(/paperOn\('(\d+)'/)`, group 1:
      the exam id, or nothing for a button without the attribute or without
      a match. */
  function ExtractExamId(onclick: Option<string>): (r: Option<string>)
    ensures r.Some? ==> r.value != "" && AllDigits(r.value)
    ensures onclick.None? ==> r.None?
    ensures onclick.Some? && r.Some? ==> IsLeftmostCapture(onclick.value, r.value)
    ensures onclick.Some? && r.None? ==> forall i, id :: !IsRegexMatch(onclick.value, i, id)
  {
    match onclick
    case None => None
    case Some(s) =>
      match FirstMatch(s, 0)
      case None =>
        NoMatchAnywhere(s);
        None
      case Some(i) =>
        var id := CaptureAt(s, i);
        LeftmostCapture(s, i);
        Some(id)
  }

  /** When the search finds nothing, the regular expression matches at no
      offset. */
  lemma NoMatchAnywhere(s: string)
    requires FirstMatch(s, 0).None?
    ensures forall i, id :: !IsRegexMatch(s, i, id)
  {
    forall i, id | IsRegexMatch(s, i, id)
      ensures false
    {
      RegexMatchIff(s, i, id);
    }
  }

  /** The search's first offset gives the leftmost match's capture. */
  lemma LeftmostCapture(s: string, i: nat)
    requires FirstMatch(s, 0) == Some(i)
    ensures IsLeftmostCapture(s, CaptureAt(s, i))
  {
    forall j, id | 0 <= j < i
      ensures !IsRegexMatch(s, j, id)
    {
      RegexMatchIff(s, j, id);
    }
    assert IsRegexMatch(s, i, CaptureAt(s, i));
  }

  /** An attribute without a quote holds no exam id. */
  lemma {:induction false} NoQuoteNoId(s: string)
    requires '\'' !in s
    ensures ExtractExamId(Some(s)).None?
  {
  }

  /** An attribute that starts with the call `paperOn('<digits>'` yields
      those digits. */
  lemma LeadingCall(id: string, rest: string)
    requires |id| > 0 && AllDigits(id)
    requires |rest| > 0 && rest[0] == '\''
    ensures ExtractExamId(Some(Opening + id + rest)) == Some(id)
  {
    var s := Opening + id + rest;
    var k := |Opening|;
    assert s[..k] == Opening;
    assert s[k..k + |id|] == id;
    assert s[k + |id|] == '\'';
    DigitRunExact(s, k, |id|);
    assert MatchesAt(s, 0);
  }

  /** The id the example button of the past-paper list carries (the
      attribute is written in three pieces only to show its parts). */
  lemma ExampleButton()
    ensures ExtractExamId(Some("paperOn('" + "3417953" + "', '2013 고1 3월 학평(부산)수학', '0', '2013');"))
            == Some("3417953")
  {
    LeadingCall("3417953", "', '2013 고1 3월 학평(부산)수학', '0', '2013');");
  }

  /** The exam ids of a page: one per button whose attribute matches, in the
      order of the buttons. */
  function ExtractExamIds(onclicks: seq<Option<string>>): (r: seq<string>)
    ensures |r| <= |onclicks|
    ensures forall k :: 0 <= k < |r| ==> r[k] != "" && AllDigits(r[k])
  {
    IdsAreExamIds(onclicks);
    FlatMap(IdOf, onclicks)
  }

  /** At most one id per button, and every id is a digit string. */
  lemma {:induction false} IdsAreExamIds(onclicks: seq<Option<string>>)
    ensures |FlatMap(IdOf, onclicks)| <= |onclicks|
    ensures forall k :: 0 <= k < |FlatMap(IdOf, onclicks)| ==> FlatMap(IdOf, onclicks)[k] != "" && AllDigits(FlatMap(IdOf, onclicks)[k])
    decreases |onclicks|
  {
    if |onclicks| > 0 {
      IdsAreExamIds(onclicks[1..]);
      var rest := FlatMap(IdOf, onclicks[1..]);
      var first := IdOf(onclicks[0]);
      assert FlatMap(IdOf, onclicks) == first + rest;
      forall k | 0 <= k < |first + rest|
        ensures (first + rest)[k] != "" && AllDigits((first + rest)[k])
      {
        if k >= |first| {
          assert (first + rest)[k] == rest[k - |first|];
        }
      }
    }
  }

  /** What one button contributes: its id, or nothing. */
  function IdOf(onclick: Option<string>): (r: seq<string>)
    ensures |r| <= 1
    ensures |r| == 1 <==> ExtractExamId(onclick).Some?
    ensures |r| == 1 ==> r[0] == ExtractExamId(onclick).value
    ensures forall k :: 0 <= k < |r| ==> r[k] != "" && AllDigits(r[k])
  {
    match ExtractExamId(onclick)
    case Some(id) => [id]
    case None => []
  }

  /** Scraping two runs of buttons gives the ids of the first run, then
      those of the second. */
  lemma ExtractExamIdsAppend(a: seq<Option<string>>, b: seq<Option<string>>)
    ensures ExtractExamIds(a + b) == ExtractExamIds(a) + ExtractExamIds(b)
  {
    FlatMapAppend(IdOf, a, b);
  }

  /** Each button contributes exactly its own id, or nothing when it has no
      matching attribute. */
  lemma ExtractExamIdsOne(o: Option<string>)
    ensures ExtractExamIds([o]) == IdOf(o)
  {
    FlatMapSingle(IdOf, o);
  }
}

=== FILE: selection.dfy ===
/** Selection of questions from one exam's statistics payload: question N
    is taken when the payload has an N-th record and that record's
    correctness rate is positive; each taken question becomes a labelled
    problem (sidebar.js, lines 165-174 and 255-264). */
module Selection {
  import opened Wrappers
  import opened Text
  import opened Form
  import opened Seqs

  /** One record of the `data` array of the statistics payload:
      `ITEM_ID` and `CORRECT_RATE`. */
  datatype StatRecord = StatRecord(itemId: string, correctRate: real)

  /** A chosen question: the item id the worksheet request sends, and the
      label the list shows. */
  datatype Problem = Problem(id: string, display: string)

  /** `subjectNames[subject]`; a code outside the map renders as
      "undefined" in the label's template literal. */
  function SubjectName(code: string): (name: string)
    ensures (code in {"1", "2", "3", "4", "5", "6", "7", "8"}) <==> name != "undefined"
  {
    if code == "1" then "국어"
    else if code == "2" then "수학"
    else if code == "3" then "영어"
    else if code == "4" then "한국사"
    else if code == "5" then "사회탐구"
    else if code == "6" then "과학탐구"
    else if code == "7" then "직업탐구"
    else if code == "8" then "제2외국어/한문"
    else "undefined"
  }

  /** The numeric value `problemNum - 1` coerces the typed number to; only
      plain decimal numbers are modelled, anything else is not a number. */
  function ProblemNumber(num: string): (r: Option<nat>)
    ensures r.Some? <==> num != "" && AllDigits(num)
  {
    ParseDecimal(num)
  }

  /** A leading zero changes nothing: `01` is read as 1, like `1`. With
      ProblemNumberOfRendering this fixes the number of every digit string. */
  lemma ProblemNumberLeadingZero(s: string)
    requires s != "" && AllDigits(s)
    ensures ProblemNumber("0" + s) == ProblemNumber(s)
  {
    DigitsValueLeadingZero(s);
  }

  /** Every number typed in its usual decimal form is read as itself. */
  lemma ProblemNumberOfRendering(n: nat)
    ensures ProblemNumber(NatToString(n)) == Some(n)
  {
    ParseNatToString(n);
  }

  /** `json.data[index]`: the record at a position, or undefined outside
      the array (negative positions included). */
  function RecordAt(data: seq<StatRecord>, index: int): (r: Option<StatRecord>)
    ensures r.Some? <==> 0 <= index < |data|
    ensures r.Some? ==> r.value == data[index]
  {
    if 0 <= index < |data| then Some(data[index]) else None
  }

  /** The label a taken question is listed under: the year, school year,
      padded month, subject name and typed number, in that order, with the
      Korean unit after each (`2013년 고1 03월 수학 1번`). */
  function Label(c: SearchContext, num: string): (r: string)
    ensures |c.year| <= |r| && r[..|c.year|] == c.year
    ensures |num| + 1 <= |r| && r[|r| - |num| - 1..] == num + "번"
  {
    c.year + "년 고" + c.grade + " " + c.month + "월 " + SubjectName(c.subject) + " " + num + "번"
  }

  /** The rule a question number is selected by, stated on positions:
      N is a number with 1 <= N <= |data| and record N-1 has a positive
      correctness rate. */
  predicate Accepted(data: seq<StatRecord>, num: string) {
    match ProblemNumber(num)
    case None => false
    case Some(n) => 1 <= n <= |data| && data[n - 1].correctRate > 0.0
  }

  /** The problem an accepted number yields. */
  function Entry(data: seq<StatRecord>, c: SearchContext, num: string): (r: Problem)
    requires Accepted(data, num)
    ensures RecordAt(data, ProblemNumber(num).value - 1).Some?
    ensures r.id == RecordAt(data, ProblemNumber(num).value - 1).value.itemId
    ensures r.display == Label(c, num)
  {
    Problem(data[ProblemNumber(num).value - 1].itemId, Label(c, num))
  }

  /** The body of the loop over the requested numbers: look the record up
      by `problemNum - 1` and keep it when `problem && problem.CORRECT_RATE > 0`. */
  function Pick(data: seq<StatRecord>, c: SearchContext, num: string): (r: seq<Problem>)
    ensures |r| <= 1
    ensures |r| == 1 <==> Accepted(data, num)
    ensures |r| == 1 ==> r[0] == Entry(data, c, num)
  {
    match ProblemNumber(num)
    case None => []
    case Some(n) =>
      match RecordAt(data, n - 1)
      case None => []
      case Some(p) => if p.correctRate > 0.0 then [Problem(p.itemId, Label(c, num))] else []
  }

  /** How many of the requested numbers are accepted. */
  function AcceptedCount(data: seq<StatRecord>, nums: seq<string>): (n: nat)
    ensures n <= |nums|
  {
    if |nums| == 0 then 0
    else (if Accepted(data, nums[0]) then 1 else 0) + AcceptedCount(data, nums[1..])
  }

  /** The loop body as a function of the typed number. */
  function PickFor(data: seq<StatRecord>, c: SearchContext): string -> seq<Problem> {
    num => Pick(data, c, num)
  }

  /** The problems one exam contributes: the picks of the typed numbers,
      in the order the numbers were typed. */
  function SelectFromExam(data: seq<StatRecord>, c: SearchContext, nums: seq<string>): (r: seq<Problem>)
    ensures |r| == AcceptedCount(data, nums)
  {
    SelectCount(data, c, nums);
    FlatMap(PickFor(data, c), nums)
  }

  /** One problem per accepted number. */
  lemma {:induction false} SelectCount(data: seq<StatRecord>, c: SearchContext, nums: seq<string>)
    ensures |FlatMap(PickFor(data, c), nums)| == AcceptedCount(data, nums)
    decreases |nums|
  {
    if |nums| > 0 {
      SelectCount(data, c, nums[1..]);
    }
  }

  /** Selecting for two runs of numbers is selecting for the first, then
      for the second. */
  lemma SelectAppend(data: seq<StatRecord>, c: SearchContext, a: seq<string>, b: seq<string>)
    ensures SelectFromExam(data, c, a + b) == SelectFromExam(data, c, a) + SelectFromExam(data, c, b)
  {
    FlatMapAppend(PickFor(data, c), a, b);
  }

  /** A single number contributes its pick. */
  lemma SelectSingle(data: seq<StatRecord>, c: SearchContext, num: string)
    ensures SelectFromExam(data, c, [num]) == Pick(data, c, num)
  {
    FlatMapSingle(PickFor(data, c), num);
  }

  /** Where each accepted number lands: the entry for the k-th typed number
      sits right after the entries of the accepted numbers typed before it.
      With SelectCount this fixes the result completely. */
  lemma SelectPosition(data: seq<StatRecord>, c: SearchContext, nums: seq<string>, k: nat)
    requires k < |nums| && Accepted(data, nums[k])
    ensures AcceptedCount(data, nums[..k]) < |SelectFromExam(data, c, nums)|
    ensures SelectFromExam(data, c, nums)[AcceptedCount(data, nums[..k])] == Entry(data, c, nums[k])
  {
    assert nums == nums[..k] + ([nums[k]] + nums[k + 1..]);
    SelectAppend(data, c, nums[..k], [nums[k]] + nums[k + 1..]);
    SelectAppend(data, c, [nums[k]], nums[k + 1..]);
    SelectSingle(data, c, nums[k]);
    SelectCount(data, c, nums[..k]);
  }

  /** A rejected number contributes nothing: the entries before and after
      it are exactly those of the other numbers. */
  lemma RejectedContributesNothing(data: seq<StatRecord>, c: SearchContext, a: seq<string>, num: string, b: seq<string>)
    requires !Accepted(data, num)
    ensures SelectFromExam(data, c, a + [num] + b) == SelectFromExam(data, c, a + b)
  {
    SelectAppend(data, c, a + [num], b);
    SelectAppend(data, c, a, [num]);
    SelectAppend(data, c, a, b);
    SelectSingle(data, c, num);
  }

  /** Every selected problem carries the item id of an accepted record and
      the label of its number. */
  lemma SelectedAreEntries(data: seq<StatRecord>, c: SearchContext, nums: seq<string>)
    ensures forall e :: e in SelectFromExam(data, c, nums) ==>
      exists k :: 0 <= k < |nums| && Accepted(data, nums[k]) && e == Entry(data, c, nums[k])
  {
    forall e | e in SelectFromExam(data, c, nums)
      ensures exists k :: 0 <= k < |nums| && Accepted(data, nums[k]) && e == Entry(data, c, nums[k])
    {
      FlatMapMember(PickFor(data, c), nums, e);
      var k :| 0 <= k < |nums| && e in PickFor(data, c)(nums[k]);
      assert e in Pick(data, c, nums[k]);
    }
  }

  /** The worked example: 2013, grade 1, month 3 (padded to 03), subject 2
      (수학), numbers "1,2"; record 1 has a 45% rate and record 2 has 0%,
      so exactly one problem is taken. */
  lemma Example(first: string, second: string, currentYear: nat)
    ensures var f := SearchForm("1", "2", "3", "2013", "1,2");
      SelectFromExam([StatRecord(first, 45.0), StatRecord(second, 0.0)],
                     Normalise(f, currentYear), ParseProblemIds(f.problemIds))
      == [Problem(first, "2013년 고1 03월 수학 1번")]
  {
    var c := SearchContext("2013", "1", "03", "2");
    ExampleContext(currentYear);
    ParseOneTwo();
    SelectOneTwo([StatRecord(first, 45.0), StatRecord(second, 0.0)], c);
    LabelExample();
  }

  /** The worked example's form normalises to 2013, grade 1, month 03,
      subject 2, whatever the current year. */
  lemma ExampleContext(currentYear: nat)
    ensures Normalise(SearchForm("1", "2", "3", "2013", "1,2"), currentYear) == SearchContext("2013", "1", "03", "2")
  {
    assert PadMonth("3") == "03";
  }

  /** Numbers 1 and 2 against a first record with a positive rate and a
      second with none select the first only. */
  lemma SelectOneTwo(data: seq<StatRecord>, c: SearchContext)
    requires |data| == 2 && data[0].correctRate > 0.0 && data[1].correctRate == 0.0
    ensures SelectFromExam(data, c, ["1", "2"]) == [Problem(data[0].itemId, Label(c, "1"))]
  {
    assert ParseDecimal("1") == Some(1);
    assert ParseDecimal("2") == Some(2);
    assert ["1", "2"] == ["1"] + ["2"];
    SelectAppend(data, c, ["1"], ["2"]);
    SelectSingle(data, c, "1");
    SelectSingle(data, c, "2");
  }

  /** The worked example's label. */
  lemma LabelExample()
    ensures Label(SearchContext("2013", "1", "03", "2"), "1") == "2013년 고1 03월 수학 1번"
  {
  }

  /** The field `1,2` holds the numbers 1 and 2. */
  lemma ParseOneTwo()
    ensures ParseProblemIds("1,2") == ["1", "2"]
  {
    OneTwoAreIds();
    JoinOneTwo();
    ParseJoinedIds(["1", "2"]);
  }

  /** The numbers 1 and 2 are clean ids: non-empty, trimmed, comma-free. */
  lemma OneTwoAreIds()
    ensures var ids := ["1", "2"];
      forall k :: 0 <= k < |ids| ==> ids[k] != "" && IsTrimmed(ids[k]) && ',' !in ids[k]
  {
  }

  /** Joining 1 and 2 with a comma gives the field `1,2`. */
  lemma JoinOneTwo()
    ensures Join(["1", "2"], ",") == "1,2"
  {
  }
}

=== FILE: seqs.dfy ===
/** Generic sequence facts. `FlatMap` is the shape shared by the exam ids
    of a page (one batch per button), the problems one exam contributes
    (one batch per typed number) and the problems a search collects (one
    batch per statistics response); its laws are proved here once. */
module Seqs {
  /** `f` applied to every element. */
  function Map<A, B>(f: A -> B, xs: seq<A>): (r: seq<B>)
    ensures |r| == |xs| && forall k :: 0 <= k < |xs| ==> r[k] == f(xs[k])
  {
    seq(|xs|, k requires 0 <= k < |xs| => f(xs[k]))
  }

  /** Mapping two runs is mapping the first, then the second. */
  lemma MapAppend<A, B>(f: A -> B, a: seq<A>, b: seq<A>)
    ensures Map(f, a + b) == Map(f, a) + Map(f, b)
  {
    var l := Map(f, a + b);
    var r := Map(f, a) + Map(f, b);
    forall k | 0 <= k < |l|
      ensures l[k] == r[k]
    {
      if k < |a| {
        assert (a + b)[k] == a[k];
      } else {
        assert (a + b)[k] == b[k - |a|];
      }
    }
  }

  /** The batches `f(xs[0])`, `f(xs[1])`, ... concatenated in order. */
  function FlatMap<A, B>(f: A -> seq<B>, xs: seq<A>): seq<B>
    decreases |xs|
  {
    if |xs| == 0 then [] else f(xs[0]) + FlatMap(f, xs[1..])
  }

  /** Mapping two runs is mapping the first, then the second. */
  lemma {:induction false} FlatMapAppend<A, B>(f: A -> seq<B>, a: seq<A>, b: seq<A>)
    ensures FlatMap(f, a + b) == FlatMap(f, a) + FlatMap(f, b)
    decreases |a|
  {
    if |a| == 0 {
      assert a + b == b;
    } else {
      FlatMapAppend(f, a[1..], b);
      assert (a + b)[1..] == a[1..] + b;
    }
  }

  /** One element contributes its own batch. */
  lemma FlatMapSingle<A, B>(f: A -> seq<B>, x: A)
    ensures FlatMap(f, [x]) == f(x)
  {
    assert [x][1..] == [];
  }

  /** Every element of the result comes from the batch of some element. */
  lemma {:induction false} FlatMapMember<A, B>(f: A -> seq<B>, xs: seq<A>, e: B)
    requires e in FlatMap(f, xs)
    ensures exists k :: 0 <= k < |xs| && e in f(xs[k])
    decreases |xs|
  {
    if e !in f(xs[0]) {
      FlatMapMember(f, xs[1..], e);
      var k :| 0 <= k < |xs[1..]| && e in f(xs[1..][k]);
      assert xs[k + 1] == xs[1..][k];
    }
  }

  /** Taking the first element out of one sequence and the same value out of
      a sequence with the same elements leaves sequences with the same
      elements. */
  lemma MultisetRemove<A>(a: seq<A>, b: seq<A>, j: nat)
    requires multiset(a) == multiset(b) && |a| > 0
    requires j < |b| && b[j] == a[0]
    ensures multiset(a[1..]) == multiset(b[..j] + b[j + 1..])
  {
    var x := a[0];
    assert a == [x] + a[1..];
    assert b == b[..j] + [x] + b[j + 1..];
    assert multiset(a[1..]) == multiset(a) - multiset{x};
    assert multiset(b[..j] + b[j + 1..]) == multiset(b) - multiset{x};
  }

  /** The batch of the element at position j is part of the result wherever
      that element stands. */
  lemma FlatMapSplitAt<A, B>(f: A -> seq<B>, b: seq<A>, j: nat)
    requires j < |b|
    ensures multiset(FlatMap(f, b)) == multiset(FlatMap(f, b[..j] + b[j + 1..])) + multiset(f(b[j]))
  {
    var pre := b[..j];
    var rest := b[j + 1..];
    assert b == pre + ([b[j]] + rest);
    FlatMapAppend(f, pre, [b[j]] + rest);
    FlatMapAppend(f, [b[j]], rest);
    FlatMapAppend(f, pre, rest);
    FlatMapSingle(f, b[j]);
  }

  /** Reordering the elements only reorders the result. */
  lemma {:induction false} FlatMapPermutation<A, B>(f: A -> seq<B>, a: seq<A>, b: seq<A>)
    requires multiset(a) == multiset(b)
    ensures multiset(FlatMap(f, a)) == multiset(FlatMap(f, b))
    decreases |a|
  {
    if |a| == 0 {
      assert |b| == |multiset(b)| == 0;
    } else {
      assert a[0] in multiset(b) by { assert a[0] in multiset(a); }
      var j :| 0 <= j < |b| && b[j] == a[0];
      MultisetRemove(a, b, j);
      FlatMapPermutation(f, a[1..], b[..j] + b[j + 1..]);
      FlatMapSplitAt(f, b, j);
    }
  }

  /** Slicing `a + [x] + b` inside `a`. */
  lemma SliceInside<T>(a: seq<T>, x: T, b: seq<T>, i: nat)
    requires i < |a|
    ensures (a + [x] + b)[..i] == a[..i]
    ensures (a + [x] + b)[i] == a[i]
    ensures (a + [x] + b)[i + 1..] == a[i + 1..] + [x] + b
  {
  }

  /** Regrouping a split-off first element. */
  lemma ConsRegroup<T>(p: seq<T>, h: T, q: seq<T>, r: seq<T>, x: seq<T>, y: seq<T>)
    requires p == [h] + q && q == x + y && r == [h] + x
    ensures p == r + y
  {
  }
}

=== FILE: sidebar.dfy ===
/** The sidebar's state: the `problems` array and whether the
    `problem-list-container` panel is shown, with the handlers that change
    them (search, delete, clear, reset), the rows the list renders, and the
    worksheet request built from the list (sidebar.js). */
module Sidebar {
  import opened Wrappers
  import opened Text
  import opened Form
  import opened Scrape
  import opened Selection
  import opened Seqs

  /** The chosen problems, in insertion order, and the panel's visibility. */
  datatype State = State(problems: seq<Problem>, panelVisible: bool)

  /** Page load: no problems and the panel hidden. */
  const Initial: State := State([], false)

  /** The invariant the page is meant to keep: the panel is shown exactly
      when there is something in the list. */
  predicate Consistent(s: State) {
    s.panelVisible <==> |s.problems| > 0
  }

  // ---------------------------------------------------------------------
  // Delete

  /** Where `Array.prototype.splice(index, 1)` starts on an array of length
      `len`: a negative index counts from the end, and the result is clamped
      to [0, len]. */
  function SpliceStart(len: nat, index: int): (start: nat)
    ensures start <= len
    ensures 0 <= index <= len ==> start == index
    ensures index > len ==> start == len
    ensures -(len as int) <= index < 0 ==> start == len + index
    ensures index < -(len as int) ==> start == 0
  {
    if index < 0 then (if len + index < 0 then 0 else len + index)
    else if index > len then len
    else index
  }

  /** `deleteProblem(index)`: `problems.splice(index, 1)`, then the panel is
      hidden if the list became empty (and otherwise left as it was). */
  function Delete(s: State, index: int): (r: State)
    ensures 0 <= index < |s.problems| ==>
      && |r.problems| == |s.problems| - 1
      && (forall k :: 0 <= k < index ==> r.problems[k] == s.problems[k])
      && (forall k :: index <= k < |r.problems| ==> r.problems[k] == s.problems[k + 1])
    ensures index >= |s.problems| ==> r.problems == s.problems
    ensures |r.problems| == 0 ==> !r.panelVisible
    ensures |r.problems| > 0 ==> r.panelVisible == s.panelVisible
  {
    var p := s.problems;
    var start := SpliceStart(|p|, index);
    var p' := if start < |p| then p[..start] + p[start + 1..] else p;
    State(p', if |p'| == 0 then false else s.panelVisible)
  }

  /** Deleting an existing entry removes that one entry and nothing else:
      the other entries are kept with their multiplicities. */
  lemma DeleteRemovesOne(s: State, i: nat)
    requires i < |s.problems|
    ensures multiset(Delete(s, i).problems) + multiset{s.problems[i]} == multiset(s.problems)
  {
    var p := s.problems;
    assert p == p[..i] + [p[i]] + p[i + 1..];
    assert Delete(s, i).problems == p[..i] + p[i + 1..];
  }

  /** Deleting keeps the panel consistent with the list. */
  lemma DeleteKeepsConsistent(s: State, index: int)
    requires Consistent(s)
    ensures Consistent(Delete(s, index))
  {
  }

  // ---------------------------------------------------------------------
  // Clear and reset

  /** The clear button: `problems = []`, re-render, hide the panel. */
  function Clear(s: State): (r: State)
    ensures r.problems == [] && !r.panelVisible
    ensures Consistent(r)
  {
    State([], false)
  }

  /** `resetPage()`: besides resetting the form fields, `problems = []`,
      the panel hidden and the rendered list emptied. */
  function Reset(s: State): (r: State)
    ensures r == Initial
    ensures Consistent(r)
  {
    State([], false)
  }

  /** Clear and reset leave the list in the same state, and doing either
      twice is doing it once. */
  lemma ClearResetIdempotent(s: State)
    ensures Reset(s) == Clear(s) == Initial
    ensures Clear(Clear(s)) == Clear(s) && Reset(Reset(s)) == Reset(s)
  {
  }

  // ---------------------------------------------------------------------
  // Rendering

  /** One rendered list item: its text and the index its delete button
      passes to `deleteProblem`. */
  datatype Row = Row(text: string, deleteIndex: nat)

  /** `updateProblemList()`: one row per problem, in list order, each delete
      button bound to the row's current position. */
  function Render(s: State): (rows: seq<Row>)
    ensures |rows| == |s.problems|
    ensures forall k :: 0 <= k < |rows| ==> rows[k].text == s.problems[k].display
  {
    seq(|s.problems|, k requires 0 <= k < |s.problems| => Row(s.problems[k].display, k))
  }

  /** Pressing the delete button of row k removes exactly problem k, and the
      next render has one row fewer, with the later rows moved up by one. */
  lemma DeleteFromRow(s: State, k: nat)
    requires k < |Render(s)|
    ensures Delete(s, Render(s)[k].deleteIndex).problems == s.problems[..k] + s.problems[k + 1..]
    ensures var after := Render(Delete(s, Render(s)[k].deleteIndex));
      && |after| == |Render(s)| - 1
      && forall j :: k <= j < |after| ==> after[j].text == Render(s)[j + 1].text
  {
  }

  // ---------------------------------------------------------------------
  // Worksheet request

  /** The item ids of the list, in order. */
  function Ids(ps: seq<Problem>): (ids: seq<string>)
    ensures |ids| == |ps|
    ensures forall k :: 0 <= k < |ps| ==> ids[k] == ps[k].id
  {
    seq(|ps|, k requires 0 <= k < |ps| => ps[k].id)
  }

  /** The item list the worksheet request sends: the ids of the listed
      problems, in list order, separated by commas. */
  function ItemList(ps: seq<Problem>): (r: string)
    ensures |ps| == 0 ==> r == ""
    ensures |ps| == 1 ==> r == ps[0].id
  {
    Join(Ids(ps), ",")
  }

  /** The item list names every problem, in list order: when no id holds a
      comma, splitting it at commas gives the ids back, one piece per
      problem. */
  lemma ItemListRoundTrip(ps: seq<Problem>)
    requires |ps| > 0
    requires forall k :: 0 <= k < |ps| ==> ',' !in ps[k].id
    ensures Split(ItemList(ps), ',') == Ids(ps)
    ensures Occurrences(ItemList(ps), ',') == |ps| - 1
  {
    SplitJoin(Ids(ps), ',');
    SplitCount(ItemList(ps), ',');
  }

  /** The five fields of the create-paper request body. */
  datatype WorksheetRequest = WorksheetRequest(
    title: string,
    desc: string,
    subjectId: string,
    itemList: string,
    paperTypeId: string)

  /** `generateProblems()`: the request for a worksheet of the listed
      problems under the typed title (empty when there is no title field);
      the list itself is not changed by generating. */
  function Worksheet(titleField: Option<string>, s: State): (r: WorksheetRequest)
    ensures r.title == titleField.GetOr("")
    ensures r.desc == "" && r.subjectId == "223120002" && r.paperTypeId == "99"
    ensures r.itemList == ItemList(s.problems)
  {
    WorksheetRequest(titleField.GetOr(""), "", "223120002", ItemList(s.problems), "99")
  }

  // ---------------------------------------------------------------------
  // Search

  /** The statistics payload fetched for an exam id: the `data` array, or
      None when the response has no `data`. */
  type Stats = string -> Option<seq<StatRecord>>

  /** The order in which the per-exam responses complete: every exam
      exactly once. */
  predicate IsArrivalOrder(arrival: seq<nat>, n: nat) {
    multiset(arrival) == multiset(Positions(n))
  }

  /** The positions 0 .. n-1 in increasing order. */
  function Positions(n: nat): (ps: seq<nat>)
    ensures |ps| == n && forall k :: 0 <= k < n ==> ps[k] == k
  {
    seq(n, k requires 0 <= k < n => k)
  }

  /** An arrival order only names scraped exams. */
  lemma ArrivalInRange(arrival: seq<nat>, n: nat)
    requires IsArrivalOrder(arrival, n)
    ensures |arrival| == n
    ensures forall k :: 0 <= k < |arrival| ==> arrival[k] < n
  {
    assert |arrival| == |multiset(arrival)| == |multiset(Positions(n))| == n;
    forall k | 0 <= k < |arrival|
      ensures arrival[k] < n
    {
      assert arrival[k] in multiset(arrival);
      assert arrival[k] in multiset(Positions(n));
    }
  }

  /** What one per-exam response appends: nothing when it has no `data`. */
  function ExamBatch(data: Option<seq<StatRecord>>, c: SearchContext, nums: seq<string>): (r: seq<Problem>)
    ensures data.None? ==> r == []
    ensures data.Some? ==> |r| == AcceptedCount(data.value, nums)
  {
    match data
    case None => []
    case Some(d) => SelectFromExam(d, c, nums)
  }

  /** What the response for the exam at position x of the scraped ids
      appends (positions outside the ids name no exam). */
  function BatchFor(ids: seq<string>, stats: Stats, c: SearchContext, nums: seq<string>): nat -> seq<Problem> {
    (x: nat) => if x < |ids| then ExamBatch(stats(ids[x]), c, nums) else []
  }

  /** The problems the responses append, batch after batch in the order the
      responses complete. */
  function Collected(ids: seq<string>, arrival: seq<nat>, stats: Stats, c: SearchContext, nums: seq<string>): seq<Problem> {
    FlatMap(BatchFor(ids, stats, c, nums), arrival)
  }

  /** Collecting two runs of responses is collecting the first, then the
      second. */
  lemma CollectedAppend(ids: seq<string>, a: seq<nat>, b: seq<nat>, stats: Stats, c: SearchContext, nums: seq<string>)
    ensures Collected(ids, a + b, stats, c, nums) == Collected(ids, a, stats, c, nums) + Collected(ids, b, stats, c, nums)
  {
    FlatMapAppend(BatchFor(ids, stats, c, nums), a, b);
  }

  /** A single response appends its own batch. */
  lemma CollectedSingle(ids: seq<string>, x: nat, stats: Stats, c: SearchContext, nums: seq<string>)
    requires x < |ids|
    ensures Collected(ids, [x], stats, c, nums) == ExamBatch(stats(ids[x]), c, nums)
  {
    FlatMapSingle(BatchFor(ids, stats, c, nums), x);
  }

  /** The completion order of the responses only reorders what they append:
      any two orders of the same responses append the same problems, with
      the same multiplicities. */
  lemma CollectedOrderIrrelevant(ids: seq<string>, a: seq<nat>, b: seq<nat>, stats: Stats, c: SearchContext, nums: seq<string>)
    requires multiset(a) == multiset(b)
    ensures multiset(Collected(ids, a, stats, c, nums)) == multiset(Collected(ids, b, stats, c, nums))
  {
    FlatMapPermutation(BatchFor(ids, stats, c, nums), a, b);
  }

  /** Every collected problem is the entry of an accepted number in the
      statistics of one of the scraped exams. */
  lemma CollectedAreEntries(ids: seq<string>, arrival: seq<nat>, stats: Stats, c: SearchContext, nums: seq<string>, e: Problem)
    requires e in Collected(ids, arrival, stats, c, nums)
    ensures exists x, k :: (0 <= x < |ids| && stats(ids[x]).Some? && 0 <= k < |nums|
        && Accepted(stats(ids[x]).value, nums[k]) && e == Entry(stats(ids[x]).value, c, nums[k]))
  {
    FlatMapMember(BatchFor(ids, stats, c, nums), arrival, e);
    var j :| 0 <= j < |arrival| && e in BatchFor(ids, stats, c, nums)(arrival[j]);
    var x := arrival[j];
    assert x < |ids| && stats(ids[x]).Some?;
    var data := stats(ids[x]).value;
    assert e in SelectFromExam(data, c, nums);
    SelectedAreEntries(data, c, nums);
    var k :| 0 <= k < |nums| && Accepted(data, nums[k]) && e == Entry(data, c, nums[k]);
  }

  /** The inputs of one submission: the form, the current year for a blank
      year field, the buttons of the result page (None when the list request
      fails or returns an empty body), the statistics per exam id, and the
      order the statistics responses complete in. */
  datatype Submission = Submission(
    form: SearchForm,
    currentYear: nat,
    page: Option<seq<Option<string>>>,
    stats: Stats,
    arrival: seq<nat>)

  /** The arrival order covers exactly the scraped exams. */
  predicate WellFormed(sub: Submission) {
    sub.page.Some? ==> IsArrivalOrder(sub.arrival, |ExtractExamIds(sub.page.value)|)
  }

  /** The problems a successful submission appends. */
  function Added(sub: Submission): seq<Problem>
    requires WellFormed(sub) && sub.page.Some?
  {
    var c := Normalise(sub.form, sub.currentYear);
    var nums := ParseProblemIds(sub.form.problemIds);
    var ids := ExtractExamIds(sub.page.value);
    Collected(ids, sub.arrival, sub.stats, c, nums)
  }

  /** Two submissions that differ only in the order their statistics
      responses complete append the same problems, up to order. */
  lemma ArrivalOrderIrrelevant(sub: Submission, arrival: seq<nat>)
    requires WellFormed(sub) && sub.page.Some?
    requires IsArrivalOrder(arrival, |ExtractExamIds(sub.page.value)|)
    ensures WellFormed(sub.(arrival := arrival))
    ensures multiset(Added(sub)) == multiset(Added(sub.(arrival := arrival)))
  {
    var ids := ExtractExamIds(sub.page.value);
    CollectedOrderIrrelevant(ids, sub.arrival, arrival, sub.stats,
                             Normalise(sub.form, sub.currentYear), ParseProblemIds(sub.form.problemIds));
  }

  /** The submit handler as written: the panel check at line 272 runs before
      any statistics callback can append (each one first awaits its fetch),
      so it sees the list as it was before the search. */
  function SearchAsWritten(s: State, sub: Submission): (r: State)
    requires WellFormed(sub)
    ensures sub.page.None? ==> r == s
    ensures |s.problems| <= |r.problems| && r.problems[..|s.problems|] == s.problems
    ensures sub.page.Some? ==> r.problems[|s.problems|..] == Added(sub)
    ensures r.problems == Search(s, sub).problems
    ensures sub.page.Some? ==> r.panelVisible == (s.panelVisible || |s.problems| > 0)
  {
    match sub.page
    case None => s
    case Some(_) =>
      var added := Added(sub);
      assert (s.problems + added)[..|s.problems|] == s.problems;
      assert (s.problems + added)[|s.problems|..] == added;
      State(s.problems + added, s.panelVisible || |s.problems| > 0)
  }

  /** From the page's initial state, a search that finds something leaves
      the list non-empty and the panel hidden. */
  lemma SearchAsWrittenHidesFirstResults(sub: Submission)
    requires WellFormed(sub) && sub.page.Some?
    ensures var r := SearchAsWritten(Initial, sub);
      |Added(sub)| > 0 ==> |r.problems| > 0 && !r.panelVisible && !Consistent(r)
  {
  }

  /** A concrete first search that shows the defect: from page load, year
      2013, grade 1, month 3, subject 2, question "1", one exam button
      `paperOn('3417953'`, and a statistics record with a 45% rate. The
      as-written handler lists the problem but keeps the panel hidden; the
      corrected one shows it. */
  lemma FirstSearchWitness(item: string)
    ensures var sub := Witness(item);
      && WellFormed(sub)
      && !Consistent(SearchAsWritten(Initial, sub))
      && Consistent(Search(Initial, sub))
      && |Search(Initial, sub).problems| == 1
  {
    var sub := Witness(item);
    WitnessAddsOne(item);
    SearchAsWrittenHidesFirstResults(sub);
  }

  /** The submission of the witness above. */
  function Witness(item: string): Submission {
    Submission(SearchForm("1", "2", "3", "2013", "1"), 2026,
               Some([Some(Opening + "3417953" + "'")]),
               (id: string) => Some([StatRecord(item, 45.0)]), [0])
  }

  /** The witness is well formed and its search appends one problem. */
  lemma WitnessAddsOne(item: string)
    ensures WellFormed(Witness(item)) && Witness(item).page.Some? && |Added(Witness(item))| == 1
  {
    var sub := Witness(item);
    WitnessWellFormed(item);
    OneQuestion();
    var c := Normalise(sub.form, sub.currentYear);
    var data := [StatRecord(item, 45.0)];
    AddedSingle(sub, "3417953", data);
    FirstQuestionTaken(data, c);
  }

  /** A page with one exam whose statistics are `data` adds that exam's
      selection. */
  lemma AddedSingle(sub: Submission, id: string, data: seq<StatRecord>)
    requires WellFormed(sub) && sub.page.Some?
    requires ExtractExamIds(sub.page.value) == [id] && sub.arrival == [0] && sub.stats(id) == Some(data)
    ensures Added(sub) == SelectFromExam(data, Normalise(sub.form, sub.currentYear), ParseProblemIds(sub.form.problemIds))
  {
    CollectedSingle([id], 0, sub.stats, Normalise(sub.form, sub.currentYear), ParseProblemIds(sub.form.problemIds));
  }

  /** The witness page scrapes to its one exam, and its single response
      is a valid arrival order. */
  lemma WitnessWellFormed(item: string)
    ensures ExtractExamIds(Witness(item).page.value) == ["3417953"]
    ensures WellFormed(Witness(item))
  {
    OneButton();
    SingleArrival();
  }

  /** A single record with a positive rate makes question 1 selected. */
  lemma FirstQuestionTaken(data: seq<StatRecord>, c: SearchContext)
    requires |data| == 1 && data[0].correctRate > 0.0
    ensures |SelectFromExam(data, c, ["1"])| == 1
  {
    assert ParseDecimal("1") == Some(1);
    SelectSingle(data, c, "1");
  }

  /** One response for one exam is an arrival order. */
  lemma SingleArrival()
    ensures IsArrivalOrder([0], 1)
  {
    assert Positions(1) == [0];
  }

  /** The witness button yields the id `3417953`. */
  lemma OneButton()
    ensures ExtractExamIds([Some(Opening + "3417953" + "'")]) == ["3417953"]
  {
    assert AllDigits("3417953");
    LeadingCall("3417953", "'");
    ExtractExamIdsOne(Some(Opening + "3417953" + "'"));
  }

  /** The field `1` holds the number 1. */
  lemma OneQuestion()
    ensures ParseProblemIds("1") == ["1"]
  {
    var ids := ["1"];
    assert forall k :: 0 <= k < |ids| ==> ids[k] != "" && IsTrimmed(ids[k]) && ',' !in ids[k];
    ParseJoinedIds(ids);
  }

  /** The submit handler with the panel check made after the statistics
      have been appended: the list grows by the collected problems and the
      panel is shown when the list is non-empty. */
  function Search(s: State, sub: Submission): (r: State)
    requires WellFormed(sub)
    ensures sub.page.None? ==> r == s
    ensures |s.problems| <= |r.problems| && r.problems[..|s.problems|] == s.problems
    ensures sub.page.Some? ==> r.problems[|s.problems|..] == Added(sub)
    ensures Consistent(s) ==> Consistent(r)
  {
    match sub.page
    case None => s
    case Some(_) =>
      var grown := s.problems + Added(sub);
      assert grown[..|s.problems|] == s.problems;
      assert grown[|s.problems|..] == Added(sub);
      State(grown, s.panelVisible || |grown| > 0)
  }

  /** Every problem a search appends (see Search: the part of the list after
      the old entries) comes from an accepted question of a scraped exam,
      labelled from the normalised form. */
  lemma AddedAreEntries(sub: Submission)
    requires WellFormed(sub) && sub.page.Some?
    ensures forall e :: e in Added(sub) ==>
      exists x, k :: (0 <= x < |ExtractExamIds(sub.page.value)|
        && sub.stats(ExtractExamIds(sub.page.value)[x]).Some?
        && 0 <= k < |ParseProblemIds(sub.form.problemIds)|
        && Accepted(sub.stats(ExtractExamIds(sub.page.value)[x]).value, ParseProblemIds(sub.form.problemIds)[k])
        && e == Entry(sub.stats(ExtractExamIds(sub.page.value)[x]).value, Normalise(sub.form, sub.currentYear),
                      ParseProblemIds(sub.form.problemIds)[k]))
  {
    var c := Normalise(sub.form, sub.currentYear);
    var ids := ExtractExamIds(sub.page.value);
    var nums := ParseProblemIds(sub.form.problemIds);
    forall e | e in Added(sub)
      ensures exists x, k :: (0 <= x < |ids| && sub.stats(ids[x]).Some? && 0 <= k < |nums|
        && Accepted(sub.stats(ids[x]).value, nums[k]) && e == Entry(sub.stats(ids[x]).value, c, nums[k]))
    {
      CollectedAreEntries(ids, sub.arrival, sub.stats, c, nums, e);
    }
  }

  // ---------------------------------------------------------------------
  // Sessions

  /** A user action on the sidebar. */
  datatype Event =
    | Submit(sub: Submission)
    | DeleteAt(index: int)
    | ClearAll
    | ResetPage
    | Generate(title: Option<string>)

  /** A submission event carries a well-formed submission. */
  predicate ValidEvent(e: Event) {
    e.Submit? ==> WellFormed(e.sub)
  }

  /** The state after one action (with the corrected search). */
  function Step(s: State, e: Event): (r: State)
    requires ValidEvent(e)
    ensures Consistent(s) ==> Consistent(r)
    ensures e.ClearAll? || e.ResetPage? ==> r == Initial
    ensures e.Generate? ==> r == s
  {
    match e
    case Submit(sub) => Search(s, sub)
    case DeleteAt(i) => Delete(s, i)
    case ClearAll => Clear(s)
    case ResetPage => Reset(s)
    case Generate(_) => s
  }

  /** The state after a sequence of actions. */
  function Run(s: State, events: seq<Event>): (r: State)
    requires forall k :: 0 <= k < |events| ==> ValidEvent(events[k])
    ensures Consistent(s) ==> Consistent(r)
  {
    if |events| == 0 then s
    else
      Step(Run(s, events[..|events| - 1]), events[|events| - 1])
  }

  /** Whatever the user does from page load, the panel is shown exactly
      when the list is non-empty. */
  lemma RunKeepsConsistent(events: seq<Event>)
    requires forall k :: 0 <= k < |events| ==> ValidEvent(events[k])
    ensures Consistent(Run(Initial, events))
  {
  }
}

=== FILE: text.dfy ===
/** String helpers the sidebar script takes from JavaScript's built-ins:
    `String.prototype.trim`, `split` on a one-character separator,
    `Array.prototype.join`, and the decimal digit strings that `Number(...)`
    and `"" + n` convert between. */
module Text {
  import opened Wrappers
  import opened Seqs

  /** The code points `trim` removes: WhiteSpace and LineTerminator of
      ECMAScript (sections 12.2 and 12.3 of ECMA-262), including every
      Unicode "Zs" space separator. */
  predicate IsWhitespace(c: char) {
    || c == '\t' || c == '\n' || c == '\U{000B}' || c == '\U{000C}' || c == '\r'
    || c == ' ' || c == '\U{00A0}' || c == '\U{1680}'
    || ('\U{2000}' <= c && c <= '\U{200A}')
    || c == '\U{2028}' || c == '\U{2029}' || c == '\U{202F}' || c == '\U{205F}'
    || c == '\U{3000}' || c == '\U{FEFF}'
  }

  predicate AllWhitespace(s: string) {
    forall k :: 0 <= k < |s| ==> IsWhitespace(s[k])
  }

  /** Neither the first nor the last character is whitespace. */
  predicate IsTrimmed(s: string) {
    |s| == 0 || (!IsWhitespace(s[0]) && !IsWhitespace(s[|s| - 1]))
  }

  /** Drops the leading whitespace: the result is the suffix that follows the
      longest all-whitespace prefix. */
  function TrimStart(s: string): (r: string)
    ensures |r| <= |s| && r == s[|s| - |r|..]
    ensures AllWhitespace(s[..|s| - |r|])
    ensures |r| == 0 || !IsWhitespace(r[0])
  {
    if |s| > 0 && IsWhitespace(s[0]) then
      var t := TrimStart(s[1..]);
      assert s[..|s| - |t|] == [s[0]] + s[1..][..|s[1..]| - |t|];
      t
    else
      s
  }

  /** Drops the trailing whitespace: the result is the prefix that precedes
      the longest all-whitespace suffix. */
  function TrimEnd(s: string): (r: string)
    ensures |r| <= |s| && r == s[..|r|]
    ensures AllWhitespace(s[|r|..])
    ensures |r| == 0 || !IsWhitespace(r[|r| - 1])
  {
    if |s| > 0 && IsWhitespace(s[|s| - 1]) then
      var t := TrimEnd(s[..|s| - 1]);
      assert s[|t|..] == s[..|s| - 1][|t|..] + [s[|s| - 1]];
      t
    else
      s
  }

  /** `String.prototype.trim`: the whitespace-free middle of `s`, with only
      whitespace cut off on either side. */
  function Trim(s: string): (r: string)
    ensures IsTrimmed(r)
    ensures |r| <= |s|
    ensures IsInfixBetweenWhitespace(s, r)
  {
    var t := TrimStart(s);
    var r := TrimEnd(t);
    TrimEndOfSuffix(s, t, r);
    r
  }

  /** Whitespace-free middle: `t` is `s` without a whitespace prefix and `r`
      is `t` without a whitespace suffix. */
  lemma TrimEndOfSuffix(s: string, t: string, r: string)
    requires |t| <= |s| && t == s[|s| - |t|..] && AllWhitespace(s[..|s| - |t|])
    requires |r| <= |t| && r == t[..|r|] && AllWhitespace(t[|r|..])
    ensures InfixAt(s, r, |s| - |t|)
  {
    var i := |s| - |t|;
    assert s[i..i + |r|] == r;
    assert s[i + |r|..] == t[|r|..];
  }

  /** `r` occurs in `s` at offset `i` with only whitespace around it. */
  ghost predicate InfixAt(s: string, r: string, i: int) {
    && 0 <= i <= |s| - |r|
    && s[i..i + |r|] == r
    && AllWhitespace(s[..i])
    && AllWhitespace(s[i + |r|..])
  }

  ghost predicate IsInfixBetweenWhitespace(s: string, r: string) {
    exists i :: InfixAt(s, r, i)
  }

  /** Cutting whitespace off the ends of a string changes nothing when its
      ends are not whitespace. */
  lemma {:induction false} TrimOfTrimmed(s: string)
    requires IsTrimmed(s)
    ensures Trim(s) == s
  {
    TrimStartOfTrimmed(s);
    TrimEndOfTrimmed(s);
  }

  /** A string that does not start with whitespace loses nothing at its start. */
  lemma TrimStartOfTrimmed(s: string)
    requires |s| == 0 || !IsWhitespace(s[0])
    ensures TrimStart(s) == s
  {
  }

  /** A string that does not end with whitespace loses nothing at its end. */
  lemma TrimEndOfTrimmed(s: string)
    requires |s| == 0 || !IsWhitespace(s[|s| - 1])
    ensures TrimEnd(s) == s
  {
  }

  /** Trimming twice is trimming once. */
  lemma TrimIdempotent(s: string)
    ensures Trim(Trim(s)) == Trim(s)
  {
    TrimOfTrimmed(Trim(s));
  }

  /** The number of occurrences of `d` in `s`. */
  function Occurrences(s: string, d: char): nat {
    multiset(s)[d]
  }

  /** The position of the first `d` in `s`. */
  function IndexOf(s: string, d: char): (i: nat)
    requires d in s
    ensures i < |s| && s[i] == d && d !in s[..i]
  {
    if s[0] == d then 0
    else
      var j := IndexOf(s[1..], d);
      assert s[..j + 1] == [s[0]] + s[1..][..j];
      j + 1
  }

  /** Any position holding `d` with no `d` before it is the first one. */
  lemma IndexOfFirst(s: string, d: char, j: nat)
    requires j < |s| && s[j] == d && d !in s[..j]
    ensures d in s && IndexOf(s, d) == j
  {
    assert d in s;
  }

  /** `s.split(d)` for a one-character separator: the maximal separator-free
      pieces of `s`, in order (so the empty string splits into one empty
      piece). */
  function Split(s: string, d: char): (r: seq<string>)
    ensures |r| > 0
    ensures forall k :: 0 <= k < |r| ==> d !in r[k]
    decreases |s|
  {
    if d in s then
      var i := IndexOf(s, d);
      [s[..i]] + Split(s[i + 1..], d)
    else
      [s]
  }

  /** A split has one more piece than there are separators. */
  lemma {:induction false} SplitCount(s: string, d: char)
    ensures |Split(s, d)| == Occurrences(s, d) + 1
    decreases |s|
  {
    if d in s {
      var i := IndexOf(s, d);
      SplitCount(s[i + 1..], d);
      assert s == s[..i] + [d] + s[i + 1..];
      assert multiset(s) == multiset(s[..i]) + multiset{d} + multiset(s[i + 1..]);
      assert d !in multiset(s[..i]);
    }
  }

  /** Splitting at a separator placed between two strings splits each. */
  lemma {:induction false} SplitAround(a: string, b: string, d: char)
    ensures Split(a + [d] + b, d) == Split(a, d) + Split(b, d)
    decreases |a|
  {
    if d in a {
      var i := IndexOf(a, d);
      SplitAround(a[i + 1..], b, d);
      SplitAroundStep(a, b, d, i);
    } else {
      SplitAroundFirst(a, b, d);
    }
  }

  /** The inductive step: the first separator of `a` is the first one of
      the whole string. */
  lemma SplitAroundStep(a: string, b: string, d: char, i: nat)
    requires i < |a| && a[i] == d && d !in a[..i]
    requires Split(a[i + 1..] + [d] + b, d) == Split(a[i + 1..], d) + Split(b, d)
    ensures Split(a + [d] + b, d) == Split(a, d) + Split(b, d)
  {
    var s := a + [d] + b;
    SliceInside(a, d, b, i);
    SplitAt(a, d, i);
    SplitAt(s, d, i);
    ConsRegroup(Split(s, d), a[..i], Split(s[i + 1..], d), Split(a, d), Split(a[i + 1..], d), Split(b, d));
  }

  /** The base case: the separator after `a` is the first one. */
  lemma SplitAroundFirst(a: string, b: string, d: char)
    requires d !in a
    ensures Split(a + [d] + b, d) == Split(a, d) + Split(b, d)
  {
    var s := a + [d] + b;
    assert s[..|a|] == a;
    assert s[|a| + 1..] == b;
    SplitAt(s, d, |a|);
  }

  /** Unfolding the split at the first separator. */
  lemma SplitAt(s: string, d: char, i: nat)
    requires i < |s| && s[i] == d && d !in s[..i]
    ensures Split(s, d) == [s[..i]] + Split(s[i + 1..], d)
  {
    IndexOfFirst(s, d, i);
  }

  /** `xs.join(sep)`: the pieces in order with `sep` between neighbours. */
  function Join(xs: seq<string>, sep: string): (r: string)
    ensures |xs| == 0 ==> r == ""
    ensures |xs| > 0 ==> xs[0] <= r
    decreases |xs|
  {
    if |xs| == 0 then ""
    else if |xs| == 1 then xs[0]
    else xs[0] + sep + Join(xs[1..], sep)
  }

  /** A piece joined in front of a non-empty list is followed by the
      separator. */
  lemma JoinCons(x: string, ys: seq<string>, sep: string)
    requires |ys| > 0
    ensures Join([x] + ys, sep) == x + sep + Join(ys, sep)
  {
    assert ([x] + ys)[1..] == ys;
  }

  /** Joining the pieces of a split with the separator gives the original. */
  lemma {:induction false} JoinSplit(s: string, d: char)
    ensures Join(Split(s, d), [d]) == s
    decreases |s|
  {
    if d in s {
      var i := IndexOf(s, d);
      var rest := s[i + 1..];
      JoinSplit(rest, d);
      JoinCons(s[..i], Split(rest, d), [d]);
      assert s == s[..i] + [d] + rest;
    }
  }

  /** Splitting a join of separator-free pieces gives the pieces back. */
  lemma {:induction false} SplitJoin(xs: seq<string>, d: char)
    requires |xs| > 0
    requires forall k :: 0 <= k < |xs| ==> d !in xs[k]
    ensures Split(Join(xs, [d]), d) == xs
    decreases |xs|
  {
    if |xs| == 1 {
      assert Join(xs, [d]) == xs[0];
    } else {
      var rest := Join(xs[1..], [d]);
      var s := xs[0] + [d] + rest;
      assert Join(xs, [d]) == s;
      var i := |xs[0]|;
      assert s[..i] == xs[0];
      IndexOfFirst(s, d, i);
      assert s[i + 1..] == rest;
      SplitJoin(xs[1..], d);
    }
  }

  predicate IsDigit(c: char) {
    '0' <= c && c <= '9'
  }

  predicate AllDigits(s: string) {
    forall k :: 0 <= k < |s| ==> IsDigit(s[k])
  }

  function DigitValue(c: char): nat
    requires IsDigit(c)
  {
    (c as int - '0' as int) as nat
  }

  function DigitChar(d: nat): (c: char)
    requires d < 10
    ensures IsDigit(c) && DigitValue(c) == d
  {
    ('0' as int + d) as char
  }

  /** The value of a string of decimal digits, most significant first
      (leading zeros allowed, the empty string is 0). */
  function DigitsValue(s: string): nat
    requires AllDigits(s)
  {
    if |s| == 0 then 0
    else DigitsValue(s[..|s| - 1]) * 10 + DigitValue(s[|s| - 1])
  }

  /** A leading zero does not change a digit string's value. */
  lemma {:induction false} DigitsValueLeadingZero(s: string)
    requires AllDigits(s)
    ensures AllDigits("0" + s) && DigitsValue("0" + s) == DigitsValue(s)
    decreases |s|
  {
    var z := "0" + s;
    assert AllDigits(z);
    if |s| > 0 {
      var init := s[..|s| - 1];
      DigitsValueLeadingZero(init);
      assert z[..|z| - 1] == "0" + init;
      assert z[|z| - 1] == s[|s| - 1];
    }
  }

  /** The numeric value of a non-empty decimal digit string; anything else is
      not a decimal number. */
  function ParseDecimal(s: string): Option<nat> {
    if |s| > 0 && AllDigits(s) then Some(DigitsValue(s)) else None
  }

  /** `"" + n`: the shortest decimal rendering of `n`. */
  function NatToString(n: nat): (r: string)
    ensures |r| > 0 && AllDigits(r)
    ensures |r| > 1 ==> r[0] != '0'
  {
    if n < 10 then [DigitChar(n)]
    else NatToString(n / 10) + [DigitChar(n % 10)]
  }

  /** Reading back the decimal rendering of a number gives the number. */
  lemma {:induction false} ParseNatToString(n: nat)
    ensures ParseDecimal(NatToString(n)) == Some(n)
  {
    var s := NatToString(n);
    if n >= 10 {
      ParseNatToString(n / 10);
      assert s[..|s| - 1] == NatToString(n / 10);
      assert s[|s| - 1] == DigitChar(n % 10);
      assert DigitsValue(s) == DigitsValue(s[..|s| - 1]) * 10 + n % 10;
    }
  }
}

=== FILE: wrappers.dfy ===
/** The optional-value datatype used wherever the sidebar script works with
    `null`, `undefined` or a failed match. */
module Wrappers {

  datatype Option<+T> = None | Some(value: T) {

    /** Returns the value in Some, or the default for None. */
    function GetOr(default: T): T {
      match this
      case Some(v) => v
      case None => default
    }
  }
}
